=== FILE: README.md ===
# Jiffy timeline model

Jiffy (`jiffy.js`) is a small media controller. It chains several media files
into one absolute timeline and calls `onStartEvent` / `onEndEvent` as
playback crosses the bounds of timed events. This project models its timeline
logic in Dafny as immutable values and pure functions:

- the builder `addTimingObj` / `checkTimingObj`, which places each file at the
  running offset and shifts that file's events into absolute time (`Builder`);
- the lookups `eventTokenFromID`, `fileTokenFromID`, `getIDTime`, `getTimeID`,
  `fileFromTime`, `toRelativeTime`, `totalPlayTime`, `getFileList`,
  `getFileToken` and `getFileStartTime` (`Lookup`);
- the export `getTimingArray`, which rebuilds the per-file ingestion shape (`Export`);
- the binary search that the TODO in `getTimeID` asks for (`Search`);
- one step of the boundary checker `eventCheck` and its cancellation
  `eventCheckCancel`, as a pure transition (`Scheduler`);
- the seek arithmetic of `playFromID` and `playFromTime` (`Controller`).

A Jiffy instance is the value `Tokens.Jiffy`. It holds `fileList` (file
tokens `{url, fileref, start, len, end}`), `eventQue` (event tokens
`{id, start, end, fileref}`) and `eventRef` (a map from an id to
`{eventQueRef, fileref}`). Times are exact `real` seconds. A timing object's
fields are `Option`s, because a property of a JavaScript object can be
missing. Its `times` object is a sequence of `Span(id, start, end)` in
property order. The media element is the record `Scheduler.Player`. The
current id and the current file are `Scheduler.Session`.

One containment rule is used everywhere: the half-open interval
`[start, end)` (`Tokens.Within`). The source mixes two other rules. `getTimeID`
uses the strict `start < t < end` (jiffy.js:143). `eventCheck` (jiffy.js:87) and
`fileFromTime` (jiffy.js:181) use the closed `start <= t <= end`.

Where the source does not run as written, the model follows its evident
intent:
- The constructor calls `this.addTimingObj` (jiffy.js:41-43) before it is assigned at jiffy.js:53, inside a callback whose `this` is not the instance. `Builder.Build` adds the timing objects in order to an empty timeline.
- `checkTimingObj` has a `try` with neither `catch` nor `finally` (jiffy.js:47-49), which does not parse. The model reads it as the returned expression alone.
- `addTimingObj` (jiffy.js:60) and `totalPlayTime` (jiffy.js:197) call `this.fileList.last()`, and JavaScript arrays have no `last` method. As written, adding a second file throws, and so does every `totalPlayTime` call. The model takes the last element of the list.
- `eventCheck` re-arms with `setTimeout(this.eventCheck, …)` (jiffy.js:96) without binding it, so a re-armed check runs without the instance and throws at `this.player.paused`. The model runs every re-armed check on the instance: `Scheduler.Run` is a sequence of such checks.
- Three more syntax errors are read past: a zero-width space before `//` at jiffy.js:113, the missing `,` after `fileFromTime` at jiffy.js:183, and the `forEach(` in `getTimingArray` that is never closed (jiffy.js:246).
- `addTimingObj` walks `times` rather than the keys of the timing object, and shifts both bounds of each event.
- `addTimingObj` keys `eventRef` by the second `forEach` argument (jiffy.js:68, 74), which is the key's position and not the key. Position 0 of a later file would overwrite position 0 of an earlier one. The `this` inside that callback is also not the instance. The model keys `eventRef` by the event's id.
- `toRelativeTime` calls `fileFromTime` without `this.` (jiffy.js:189). The model calls the instance's `fileFromTime`.
- Event tokens carry their `id` and `fileref`. The source never stores them on the token (jiffy.js:69-73), but reads both (jiffy.js:143, 240, 270).
- `eventTokenFromID` returns nothing for an id without an `eventRef` entry. The source throws there (jiffy.js:120).
- After a crossing, `eventCheck` re-arms for the end of the new event. The source reads `.end` off an `eventRef` entry (jiffy.js:93, 96), which has no `end`, so its delay is not a number.
- `fileTokenFromID` reads `fileList[eventRef[id].fileref]` instead of the undefined `fileQue`.
- The `forEach` callbacks in `fileFromTime` and `getFileToken` are read as searches for the first match.
- `getTimingArray` filters `eventQue` by `fileref` instead of reading an undefined `timingObj`.
- `eventCheck` stores the new id in `currentID`. The source assigns it to a local variable.
- `playFromID` stores the file number in `currentFileRef`. The source writes a field `currentFile` that nothing reads.
- `checkTimingObj` reads `times.length`, which a plain object does not have. The model reads it as "times is non-empty".

The code validates less than a caller might expect; the model follows the code:
- `checkTimingObj` only tests truthiness. A length is accepted when it is non-zero, not only when it is positive.
- Event bounds are never checked against the file.
- A repeated id is not rejected. It overwrites its `eventRef` entry.

Properties that need more than the code enforces carry extra preconditions.
`IdsUnique` says no id appears twice. `Ordered` says events are non-empty,
in time order and do not overlap. `PositiveLengths` says every file is longer
than zero.

## Model

| member | source | states |
|---|---|---|
| Lookup.EventTokenFromID | jiffy.js:119-122 | whatever `eventTokenFromID` returns is a queued event reached through an `eventRef` entry for that id |
| Lookup.FileTokenFromID | jiffy.js:124-127 | whatever `fileTokenFromID` returns is a file of the timeline reached through the id's `eventRef` entry |
| Lookup.GetIDTime | jiffy.js:148-151 | the time `getIDTime` returns is the start of some queued event |
| Lookup.IdLookups | jiffy.js:119-151 | on a valid timeline the id lookups succeed exactly for indexed ids; the event found carries the id, `getIDTime` is its start, and the file found is the event's owner |
| Lookup.FirstEventAt | jiffy.js:141-144 | the scan returns the first position whose event holds the time, or none when no event from that position on holds it |
| Lookup.GetTimeID | jiffy.js:138-145 | `getTimeID(t)` returns an id exactly when some event holds `t`, and then the id of an event that holds `t` |
| Lookup.TimeIDResolves | jiffy.js:138-151 | with unique ids, the id `getTimeID(t)` returns resolves through `eventRef` to an event that holds `t` |
| Lookup.FirstFileAt | jiffy.js:180-182 | the scan returns the first file holding the time, or none when no file from that position on holds it |
| Lookup.FileFromTime | jiffy.js:179-183 | `fileFromTime(t)` returns a file of the timeline that holds `t`, and none only when no file holds `t` |
| Lookup.FilesTileTimeline | jiffy.js:179-199 | with positive lengths, every time in `[0, totalPlayTime)` lies in exactly one file, the one `fileFromTime` returns |
| Lookup.HoldsUnique | jiffy.js:59-64 | with positive lengths, contiguous files never overlap: two files holding the same time are the same file |
| Lookup.ToRelativeTime | jiffy.js:186-191 | `toRelativeTime(t)` is defined exactly when a file holds `t`, lies in `[0, len)` of that file and adds back to `t` with the file's start |
| Lookup.EndIsSumOfLengths | jiffy.js:59-64 | file n ends at the summed lengths of files 0..n |
| Lookup.StartIsSumOfEarlierLengths | jiffy.js:59-64 | each file starts at the summed lengths of the files before it, 0 for the first |
| Lookup.TotalPlayTime | jiffy.js:194-199 | where the last file ends, and 0 for an empty timeline; it has no contract of its own, and `Lookup.TotalIsSumOfLengths` and `Builder.BuildTotal` pin its value |
| Lookup.TotalIsSumOfLengths | jiffy.js:194-199 | `totalPlayTime` equals the sum of all file lengths |
| Lookup.GetFileList | jiffy.js:202-210 | `getFileList` has one url per file, in file order, each the url of that file |
| Lookup.FirstFileWithUrl | jiffy.js:214-216 | the scan returns the first file with the url, or none when no file from that position on has it |
| Lookup.GetFileToken | jiffy.js:213-217 | `getFileToken(url)` is defined exactly when the url is in `getFileList`, and returns the earliest file with that url |
| Lookup.GetFileStartTime | jiffy.js:228-231 | `getFileStartTime(url)` is defined exactly when the url is in `getFileList` |
| Lookup.FileStartIsEarlierLengths | jiffy.js:228-231 | the start `getFileStartTime` returns is the summed lengths of the files before that file |
| Builder.CheckTimingObj | jiffy.js:46-50 | the truthiness test on url, `length_seconds` and `times`; a predicate with no contract of its own, and `Builder.AddTimingObj` states what acceptance and rejection do |
| Builder.AddTimingObj | jiffy.js:53-56 | a timing object that fails `checkTimingObj` leaves `fileList`, `eventQue` and `eventRef` unchanged; a well-formed one adds exactly one file |
| Builder.AddAppendsFile | jiffy.js:58-65 | the new file token keeps the earlier files, takes the next `fileref`, starts where the timeline ended, has `end = start + len`, and total play time grows by `len` |
| Builder.AddAppendsEvents | jiffy.js:67-73 | the object's events follow the old queue in order, and each absolute bound minus the file offset is the original relative bound |
| Builder.IdsOfMembers | jiffy.js:68 | the ids of a `times` list are exactly the ids at its positions |
| Builder.IndexEventsKeys | jiffy.js:74 | the index loop adds exactly the ids of `times` to `eventRef` |
| Builder.IndexEventsKeeps | jiffy.js:74 | entries for ids that `times` does not name are kept |
| Builder.IndexEventsNew | jiffy.js:74 | each id of `times` is recorded in the new file and points into the new stretch of the queue, at a property with that id |
| Builder.IndexEventsDistinct | jiffy.js:74 | with distinct ids, the property at position k is recorded at queue position base + k |
| Builder.AddKeepsValid | jiffy.js:53-76 | `addTimingObj` preserves the invariant: contiguous numbered files and a consistent `eventRef` |
| Builder.AddKeepsContiguous | jiffy.js:59-65 | the appended file starts where the last one ended, so files stay contiguous |
| Builder.AddKeepsIndexed | jiffy.js:68-75 | after `addTimingObj` every queued event is indexed and every index entry points at its event and owner |
| Builder.IndexedAppend | jiffy.js:68-75 | appending a file token with its placed and indexed events keeps the index consistent |
| Builder.QueuedAreIndexed | jiffy.js:73-74 | every event of the extended queue has a known file and an index entry |
| Builder.IndexPointsAtQueue | jiffy.js:73-74 | every entry of the extended index points at a queued event with its id and file |
| Builder.AddedEventsAreIndexed | jiffy.js:68-75 | after adding an object with distinct ids, `eventTokenFromID(id)` is the event at its relative bounds plus the summed earlier lengths, `getIDTime(id)` is that start, and `fileTokenFromID(id)` is the new file |
| Builder.PlacedEventIsIndexed | jiffy.js:73-74 | a placed event with a distinct id is what its id resolves to, and its file is the new file |
| Builder.Build | jiffy.js:41-43 | the constructor's loop, adding the timing objects in order; it has no contract of its own, and `Builder.BuildIsValid`, `Builder.BuildFileList`, `Builder.BuildTotal` and `Builder.BuildEventIds` pin it |
| Builder.BuildIsValid | jiffy.js:41-43 | a timeline built from any timing array satisfies the invariant |
| Builder.BuildFileList | jiffy.js:202-210 | `getFileList` returns the urls of the accepted timing objects in insertion order, one per file |
| Builder.AcceptedUrlsMembers | jiffy.js:41-56 | a url is among the accepted urls exactly when some well-formed timing object carries it |
| Builder.BuildEventIds | jiffy.js:41-43 | a built timeline queues one event per property of the accepted objects, in submission order, under that property's id |
| Builder.BuildIdsUnique | jiffy.js:41-43 | when no id repeats across the accepted objects, the built timeline's event ids are unique |
| Builder.BuildTotal | jiffy.js:194-199 | `totalPlayTime` of a built timeline is the summed length of the accepted objects |
| Export.RelativeTimes | jiffy.js:239-246 | the events of one file made relative to its start; it has no contract of its own, and `Export.ExportedComeFromFile` and `Export.RelativeTimesPlaced` pin it |
| Export.ExportedComeFromFile | jiffy.js:239-246 | each exported span is an event of the file with the file's start subtracted from both bounds |
| Export.GetTimingArray | jiffy.js:234-258 | `getTimingArray(url)` is defined exactly when the url is known, and carries that url and the file's length |
| Export.RelativeTimesAppend | jiffy.js:239-246 | exporting a concatenated queue exports each part in turn |
| Export.RelativeTimesForeign | jiffy.js:240 | a queue with no event of the file exports nothing for it |
| Export.RelativeTimesPlaced | jiffy.js:241-244 | events placed into a file at its start export back to the spans they came from |
| Export.RoundTrip | jiffy.js:233-258 | after adding a well-formed object under a new url, `getTimingArray(url)` returns that same object: url, `length_seconds` and times |
| Export.AddKeepsFileToken | jiffy.js:213-217 | adding a timing object does not change the file `getFileToken` finds for a url the timeline already had |
| Export.AddKeepsExport | jiffy.js:233-258 | adding a timing object does not change `getTimingArray` of any url the timeline already had |
| Export.BuildRoundTrip | jiffy.js:41-43 | when no two well-formed objects of a timing array share a url, `getTimingArray` returns each of them unchanged from the built timeline |
| Search.OrderedHoldsUnique | jiffy.js:138-145 | in an ordered queue at most one event holds a given time |
| Search.EventStartIsFound | jiffy.js:138-145 | on an ordered queue the half-open lookup maps each event's start to that event |
| Search.BinarySearchTimeID | jiffy.js:138-145 | on an ordered queue, binary search returns exactly what the linear `getTimeID` scan returns |
| Search.AddKeepsOrdered | jiffy.js:67-75 | adding an object whose times fit its file keeps the queue ordered and within the timeline |
| Search.BuildIsOrdered | jiffy.js:41-43 | a timeline built from objects whose times fit their files is ordered, so binary search applies to it |
| Scheduler.GetCurrentTime | jiffy.js:130-135 | the absolute playhead is defined exactly when the current file exists, and lies in that file when the element's time is within the file's length |
| Scheduler.CurrentTimeIsRelative | jiffy.js:130-135 | with positive lengths, `toRelativeTime(getCurrentTime())` finds the current file again and gives back the element's own time |
| Scheduler.Step | jiffy.js:85-96 | inside the current event the step emits nothing and re-arms so that it fires exactly 5 ms after that event's end; otherwise it emits exactly `onEnd(current)` followed by `onStart(getTimeID(playhead))`, at most two notices, and makes that id current; the notices are always bracketed |
| Scheduler.StepSynchronises | jiffy.js:85-96 | after a step the current id names the event holding the playhead, or none holds it, and the re-arm lands exactly 5 ms after that event's end |
| Scheduler.StepIsQuietWhenInSync | jiffy.js:95-96 | a second check at the same playhead emits nothing and keeps the id, so re-arming never repeats a notification |
| Scheduler.Stopped | jiffy.js:83 | the exit test: paused, ended, or an empty current id; it has no contract of its own, and `Scheduler.EventCheck` states what a stopped check does |
| Scheduler.EventCheck | jiffy.js:81-97 | a paused or ended element or an empty current id stops the loop with no notification; otherwise the check re-arms exactly when the current file is known, and is then the boundary step at the absolute playhead `getCurrentTime()` |
| Scheduler.EventCheckCancel | jiffy.js:99-102 | cancelling emits exactly `onEnd(current)` when an event is current and nothing otherwise, resets the current id and leaves the element untouched |
| Scheduler.BracketedJoin | jiffy.js:81-102 | bracketed notification streams compose end to end |
| Scheduler.RunIsBracketed | jiffy.js:81-97 | over any sequence of checks each `onStart` is followed by exactly one `onEnd` of the same id before the next `onStart` |
| Scheduler.RunThenCancelIsBalanced | jiffy.js:81-102 | any run of checks followed by a cancel leaves no event started and not ended |
| Controller.PlayFromID | jiffy.js:263-279 | `playFromID` succeeds exactly for indexed ids; it sets the current id at once, plays the owning file's url, makes the owning file current, seeks to `event.start - file.start` in it, and so puts the absolute playhead at `getIDTime(id)` |
| Controller.PlayThenCheckIsQuiet | jiffy.js:263-279 | right after `playFromID` the next `eventCheck` emits nothing, keeps the id and, for a non-empty id, re-arms |
| Controller.PlayFromTime | jiffy.js:282-285 | `playFromTime(t)` fails with `TimeOutOfRange` exactly when no event holds `t`, and otherwise makes `getTimeID(t)` current |
| Controller.PlayFromTimeSeeksToEventStart | jiffy.js:282-285 | on an ordered queue with unique ids, `playFromTime(t)` seeks to the start of the event holding `t`, which is at or before `t` |
| Scenarios.BuildFileA | jiffy.js:53-76 | one file `a.mp3` of length 10 with `x` [0,4) and `y` [4,10) builds the expected tokens and index |
| Scenarios.OneFileLocate | jiffy.js:138-145 | on that timeline time 2 is in `x` and time 7 in `y` |
| Scenarios.OneFileExport | jiffy.js:234-258 | exporting `a.mp3` gives back its timing object |
| Scenarios.TwoFileScenario | jiffy.js:59-75 | `z` at relative [1,2) in the second of two 5 s files is at absolute [6,7) |
| Scenarios.SeekWhileWatchingScenario | jiffy.js:85-96 | watching `x` with the playhead found at 8 emits `onEnd(x)` then `onStart(y)` and re-arms after 2005 ms |
| AsWritten.FirstStrictAt | jiffy.js:141-144 | the strict scan as written returns a position whose event strictly contains the time, or none when none does |
| AsWritten.GetTimeIDStrict | jiffy.js:138-145 | the lookup as written returns nothing only when no event strictly contains the time |
| AsWritten.StrictLookupMissesEventStarts | jiffy.js:143 | the lookup as written finds no event at 0 or 4, the starts of `x` and `y` |

## Left out

- DOM wiring: the `addEventListener` calls (jiffy.js:19-25) and the effects on the media element. Playback is the record `Scheduler.Player`, and a seek is a new `currentTime`.
- Timers: `setTimeout` (jiffy.js:96) is not scheduled or cancelled. Only the computed re-arm delay is modelled, as `Tick.rearmMs`. The source passes the unbound `this.eventCheck`, so its re-armed checks would throw; `Scheduler.Run`, `Scheduler.RunIsBracketed` and `Scheduler.RunThenCancelIsBalanced` assume each re-armed check runs on the instance.
- `formatTime` and `toSeconds` (jiffy.js:154-176): display helpers that depend on JavaScript `Date` and on string coercion.
- `getFileLength` (jiffy.js:220-225): it returns the file's end rather than its length, contrary to its comment. No property is claimed for it.
- The `console.log` error report (jiffy.js:55). A rejected object simply leaves the timeline unchanged.
- Floating point: times are exact reals. Rounding in the source's sums and differences is not modelled.
- The constructor's callback slots (jiffy.js:14-15). These are not valid JavaScript. Notifications are returned as `Scheduler.Notice` values instead.
- The `this.player.pause` expression in `playFromID` (jiffy.js:265). It is never called, so it has no effect.
- Lookup.TotalPlayTime: an empty timeline gives 0. The source throws on `.last()` for every timeline, empty or not, because arrays have no `last` method; the model reads it as the last element.
- Scheduler.Step: no `onStart` is emitted when no event holds the playhead. The source calls `onStartEvent(undefined)` and then throws reading `.end` of a missing entry. Here the step re-arms after the 5 ms slack alone.
- Scheduler.EventCheck: with no current id (the source's `-1`), or an id without an event, the source throws in `eventTokenFromID` (jiffy.js:85, 120) before any callback. The model treats the missed lookup as "outside the current event" and runs the step. A missing current file stops the loop, where the source would also throw.
- Scheduler.EventCheckCancel: nothing is emitted when nothing is current. The source calls `onEndEvent(-1)`.
- Scheduler.RunIsBracketed: it states that notifications are well bracketed. It does not state that a continuous run visits every event it crosses.
- Builder.AddTimingObj: the source shifts the caller's own event objects in place, adds a `len` field to them (jiffy.js:70-71) and pushes those same objects onto `eventQue`. The model copies each event into a new token without `len`. It does not change the caller's timing object, and adding the same object twice does not move events already queued.
- Builder.AddTimingObj: there is no validation of event bounds, overlaps or duplicate ids, because the source performs none. Properties that need such checks require `IdsUnique`, `Ordered` or `WellTimed`.

## Findings

| source | as written | input that shows it | evidently intended | confidence | as-written member | corrected member |
|---|---|---|---|---|---|---|
| jiffy.js:143 | `getTimeID` tests `time > start && time < end`, so an event is missed at its own start | `a.mp3` with `x` [0,4) and `y` [4,10): `getTimeID(0)` and `getTimeID(4)` find nothing, so `playFromTime(0)` has nothing to play | an event holds its start: `start <= time < end` | high, not executed | AsWritten.StrictLookupMissesEventStarts | Search.EventStartIsFound |

=== FILE: builder.dfy ===
/**
  The timeline builder: `checkTimingObj` and `addTimingObj` (jiffy.js:46-76),
  and the constructor's ingestion of a whole timing array (jiffy.js:41-43).
 */
module Builder {
  import opened Wrappers
  import opened Tokens
  import opened Lookup

  /**
    `checkTimingObj` (jiffy.js:46-50): the url, the length and the times must
    all be present and truthy. JavaScript truthiness makes that a non-empty
    url and a non-zero length. The source reads `times.length`, which an
    object does not have; the evident intent is a non-empty `times`.
   */
  predicate CheckTimingObj(o: TimingObj) {
    && o.url.Some? && o.url.value != ""
    && o.lengthSeconds.Some? && o.lengthSeconds.value != 0.0
    && o.times.Some? && |o.times.value| > 0
  }

  /** The ids named in a `times` list. */
  function IdsOf(times: seq<Span>): set<EventId>
    decreases |times|
  {
    if |times| == 0 then {} else {times[0].id} + IdsOf(times[1..])
  }

  /** The ids of `times` are exactly the ids at its positions. */
  lemma {:induction false} IdsOfMembers(times: seq<Span>)
    decreases |times|
    ensures forall k :: 0 <= k < |times| ==> times[k].id in IdsOf(times)
    ensures forall id :: id in IdsOf(times) ==> exists k :: 0 <= k < |times| && times[k].id == id
  {
    if |times| > 0 {
      IdsOfMembers(times[1..]);
      assert forall k :: 0 < k < |times| ==> times[k] == times[1..][k - 1];
      forall id | id in IdsOf(times)
        ensures exists k :: 0 <= k < |times| && times[k].id == id
      {
        if id != times[0].id {
          var k :| 0 <= k < |times[1..]| && times[1..][k].id == id;
          assert times[k + 1].id == id;
        }
      }
    }
  }

  /** No id appears twice in a `times` list, as in a JavaScript object's own properties. */
  predicate DistinctIds(times: seq<Span>) {
    forall a, b :: 0 <= a < b < |times| ==> times[a].id != times[b].id
  }

  /** A relative span placed in absolute time inside file `fileref` starting at `offset`. */
  function Place(s: Span, offset: real, fileref: nat): EventToken {
    EventToken(s.id, s.start + offset, s.end + offset, fileref)
  }

  /** The events of one timing object, shifted into absolute time, in `times` order. */
  function PlaceAll(times: seq<Span>, offset: real, fileref: nat): (r: seq<EventToken>)
    ensures |r| == |times|
    ensures forall k :: 0 <= k < |times| ==> r[k] == Place(times[k], offset, fileref)
  {
    seq(|times|, k requires 0 <= k < |times| => Place(times[k], offset, fileref))
  }

  /**
    The `eventRef` half of the event loop of `addTimingObj` (jiffy.js:68-75):
    the property at position k of `times` is recorded as queue position
    `base + k` of file `fileref`, later properties overwriting earlier ones.
   */
  function IndexEvents(refs: map<EventId, EventRef>, times: seq<Span>, base: nat, fileref: nat)
    : map<EventId, EventRef>
    decreases |times|
  {
    if |times| == 0 then refs
    else IndexEvents(refs[times[0].id := EventRef(base, fileref)], times[1..], base + 1, fileref)
  }

  /** The index loop adds exactly the ids of `times` to the index. */
  lemma {:induction false} IndexEventsKeys(refs: map<EventId, EventRef>, times: seq<Span>, base: nat, fileref: nat)
    decreases |times|
    ensures IndexEvents(refs, times, base, fileref).Keys == refs.Keys + IdsOf(times)
  {
    if |times| > 0 {
      IndexEventsKeys(refs[times[0].id := EventRef(base, fileref)], times[1..], base + 1, fileref);
    }
  }

  /** The index loop keeps the entries of ids that `times` does not name. */
  lemma {:induction false} IndexEventsKeeps(refs: map<EventId, EventRef>, times: seq<Span>, base: nat, fileref: nat, id: EventId)
    requires id in refs && id !in IdsOf(times)
    decreases |times|
    ensures id in IndexEvents(refs, times, base, fileref)
    ensures IndexEvents(refs, times, base, fileref)[id] == refs[id]
  {
    if |times| > 0 {
      IndexEventsKeeps(refs[times[0].id := EventRef(base, fileref)], times[1..], base + 1, fileref, id);
    }
  }

  /**
    The index loop records each id of `times` in file `fileref`, pointing into
    the new stretch of the queue at a property that carries that id.
   */
  lemma {:induction false} IndexEventsNew(refs: map<EventId, EventRef>, times: seq<Span>, base: nat, fileref: nat, id: EventId)
    requires id in IdsOf(times)
    decreases |times|
    ensures id in IndexEvents(refs, times, base, fileref)
    ensures IndexEvents(refs, times, base, fileref)[id].fileref == fileref
    ensures base <= IndexEvents(refs, times, base, fileref)[id].eventQueRef < base + |times|
    ensures times[IndexEvents(refs, times, base, fileref)[id].eventQueRef - base].id == id
  {
    var tail := times[1..];
    var refs' := refs[times[0].id := EventRef(base, fileref)];
    if id in IdsOf(tail) {
      IndexEventsNew(refs', tail, base + 1, fileref, id);
      var p := IndexEvents(refs', tail, base + 1, fileref)[id].eventQueRef;
      assert tail[p - (base + 1)] == times[p - base];
    } else {
      IndexEventsKeeps(refs', tail, base + 1, fileref, id);
    }
  }

  /** With distinct ids, the property at position k is recorded at queue position `base + k`. */
  lemma IndexEventsDistinct(refs: map<EventId, EventRef>, times: seq<Span>, base: nat, fileref: nat, k: nat)
    requires DistinctIds(times)
    requires k < |times|
    ensures times[k].id in IndexEvents(refs, times, base, fileref)
    ensures IndexEvents(refs, times, base, fileref)[times[k].id] == EventRef(base + k, fileref)
  {
    var r := IndexEvents(refs, times, base, fileref);
    IdsOfMembers(times);
    IndexEventsNew(refs, times, base, fileref, times[k].id);
    var p := r[times[k].id].eventQueRef;
    assert times[p - base].id == times[k].id;
  }

  /**
    `addTimingObj` (jiffy.js:53-76). A malformed object is rejected and the
    timeline is returned untouched. Otherwise a file token is appended at the
    running offset (the end of the last file, 0 for the first) with the next
    file number, and the object's events follow it in absolute time.
   */
  function AddTimingObj(j: Jiffy, o: TimingObj): (r: Jiffy)
    ensures !CheckTimingObj(o) ==> r == j
    ensures CheckTimingObj(o) ==> |r.fileList| == |j.fileList| + 1
  {
    if !CheckTimingObj(o) then
      j
    else
      var offset := TotalPlayTime(j);
      var fileref := |j.fileList|;
      var len := o.lengthSeconds.value;
      var token := FileToken(o.url.value, fileref, offset, len, offset + len);
      Jiffy(j.fileList + [token],
            j.eventQue + PlaceAll(o.times.value, offset, fileref),
            IndexEvents(j.eventRef, o.times.value, |j.eventQue|, fileref))
  }

  /**
    A well-formed timing object becomes one new file token after the existing
    ones: numbered by its position, with the object's url and length, starting
    where the timeline ended and ending `length` later, so the total play
    time grows by its length.
   */
  lemma AddAppendsFile(j: Jiffy, o: TimingObj)
    requires CheckTimingObj(o)
    ensures AddTimingObj(j, o).fileList[..|j.fileList|] == j.fileList
    ensures AddTimingObj(j, o).fileList[|j.fileList|]
      == FileToken(o.url.value, |j.fileList|, TotalPlayTime(j), o.lengthSeconds.value, TotalPlayTime(j) + o.lengthSeconds.value)
    ensures TotalPlayTime(AddTimingObj(j, o)) == TotalPlayTime(j) + o.lengthSeconds.value
  {
    assert (j.fileList + [AddTimingObj(j, o).fileList[|j.fileList|]])[..|j.fileList|] == j.fileList;
  }

  /**
    A well-formed timing object's events follow the existing queue in
    `times` order, each shifted by the timeline's end before the object was
    added and tagged with the new file's number.
   */
  lemma AddAppendsEvents(j: Jiffy, o: TimingObj)
    requires CheckTimingObj(o)
    ensures AddTimingObj(j, o).eventQue == j.eventQue + PlaceAll(o.times.value, TotalPlayTime(j), |j.fileList|)
    ensures |AddTimingObj(j, o).eventQue| == |j.eventQue| + |o.times.value|
    ensures forall k :: 0 <= k < |o.times.value| ==>
      AddTimingObj(j, o).eventQue[|j.eventQue| + k].start - TotalPlayTime(j) == o.times.value[k].start
      && AddTimingObj(j, o).eventQue[|j.eventQue| + k].end - TotalPlayTime(j) == o.times.value[k].end
  {
  }

  /** `addTimingObj` keeps the timeline invariant: contiguous files and a consistent event index. */
  lemma AddKeepsValid(j: Jiffy, o: TimingObj)
    requires Valid(j)
    ensures Valid(AddTimingObj(j, o))
  {
    if CheckTimingObj(o) {
      AddKeepsContiguous(j, o);
      AddKeepsIndexed(j, o);
    }
  }

  /** The appended file starts where the last one ended, so the file list stays contiguous. */
  lemma AddKeepsContiguous(j: Jiffy, o: TimingObj)
    requires Valid(j)
    requires CheckTimingObj(o)
    ensures Contiguous(AddTimingObj(j, o).fileList)
  {
    var r := AddTimingObj(j, o);
    var n := |j.fileList|;
    assert forall i :: 0 <= i < n ==> r.fileList[i] == j.fileList[i];
    if n > 0 {
      assert r.fileList[n].start == j.fileList[n - 1].end;
    }
  }

  /** The appended events are indexed under their ids, and older entries still point at their events. */
  lemma AddKeepsIndexed(j: Jiffy, o: TimingObj)
    requires Valid(j)
    requires CheckTimingObj(o)
    ensures Indexed(AddTimingObj(j, o))
  {
    var n := |j.fileList|;
    var offset := TotalPlayTime(j);
    var len := o.lengthSeconds.value;
    var token := FileToken(o.url.value, n, offset, len, offset + len);
    IndexedAppend(j, token, o.times.value, offset);
  }

  /**
    Appending one file token and its placed, indexed events to an indexed
    timeline gives an indexed timeline.
   */
  lemma IndexedAppend(j: Jiffy, token: FileToken, times: seq<Span>, offset: real)
    requires Indexed(j)
    ensures Indexed(Jiffy(j.fileList + [token],
                          j.eventQue + PlaceAll(times, offset, |j.fileList|),
                          IndexEvents(j.eventRef, times, |j.eventQue|, |j.fileList|)))
  {
    QueuedAreIndexed(j, times, offset);
    IndexPointsAtQueue(j, times, offset);
  }

  /** Every event of the extended queue belongs to a known file and has an index entry. */
  lemma QueuedAreIndexed(j: Jiffy, times: seq<Span>, offset: real)
    requires Indexed(j)
    ensures forall i :: 0 <= i < |j.eventQue| + |times| ==>
      && (j.eventQue + PlaceAll(times, offset, |j.fileList|))[i].fileref < |j.fileList| + 1
      && (j.eventQue + PlaceAll(times, offset, |j.fileList|))[i].id in IndexEvents(j.eventRef, times, |j.eventQue|, |j.fileList|)
  {
    var n := |j.fileList|;
    var m := |j.eventQue|;
    var q := j.eventQue + PlaceAll(times, offset, n);
    var refs := IndexEvents(j.eventRef, times, m, n);
    IndexEventsKeys(j.eventRef, times, m, n);
    IdsOfMembers(times);
    forall i | 0 <= i < |q|
      ensures q[i].fileref < n + 1 && q[i].id in refs
    {
      if i < m {
        assert q[i] == j.eventQue[i];
      } else {
        assert q[i] == Place(times[i - m], offset, n);
      }
    }
  }

  /** Every entry of the extended index points at an event of the extended queue with its id and file. */
  lemma IndexPointsAtQueue(j: Jiffy, times: seq<Span>, offset: real)
    requires Indexed(j)
    ensures forall id :: id in IndexEvents(j.eventRef, times, |j.eventQue|, |j.fileList|) ==>
      var q := j.eventQue + PlaceAll(times, offset, |j.fileList|);
      var e := IndexEvents(j.eventRef, times, |j.eventQue|, |j.fileList|)[id];
      && e.eventQueRef < |q|
      && q[e.eventQueRef].id == id
      && q[e.eventQueRef].fileref == e.fileref
  {
    var n := |j.fileList|;
    var m := |j.eventQue|;
    var q := j.eventQue + PlaceAll(times, offset, n);
    var refs := IndexEvents(j.eventRef, times, m, n);
    IndexEventsKeys(j.eventRef, times, m, n);
    forall id | id in refs
      ensures refs[id].eventQueRef < |q|
      ensures q[refs[id].eventQueRef].id == id
      ensures q[refs[id].eventQueRef].fileref == refs[id].fileref
    {
      var p := refs[id].eventQueRef;
      if id in IdsOf(times) {
        IndexEventsNew(j.eventRef, times, m, n, id);
        assert q[p] == Place(times[p - m], offset, n);
      } else {
        IndexEventsKeeps(j.eventRef, times, m, n, id);
        assert q[p] == j.eventQue[p];
      }
    }
  }

  /**
    After a successful `addTimingObj` whose `times` name distinct ids, each
    event's absolute bounds are its relative bounds plus the file's offset
    (the summed lengths of the earlier files), and `eventTokenFromID`,
    `getIDTime` and `fileTokenFromID` find it and its new file.
   */
  lemma AddedEventsAreIndexed(j: Jiffy, o: TimingObj, k: nat)
    requires Valid(j)
    requires CheckTimingObj(o)
    requires DistinctIds(o.times.value)
    requires k < |o.times.value|
    ensures EventTokenFromID(AddTimingObj(j, o), o.times.value[k].id)
      == Some(EventToken(o.times.value[k].id,
                         o.times.value[k].start + SumLengths(j.fileList),
                         o.times.value[k].end + SumLengths(j.fileList),
                         |j.fileList|))
    ensures GetIDTime(AddTimingObj(j, o), o.times.value[k].id) == Some(o.times.value[k].start + SumLengths(j.fileList))
    ensures FileTokenFromID(AddTimingObj(j, o), o.times.value[k].id)
      == Some(AddTimingObj(j, o).fileList[|j.fileList|])
  {
    var n := |j.fileList|;
    var offset := TotalPlayTime(j);
    var len := o.lengthSeconds.value;
    var token := FileToken(o.url.value, n, offset, len, offset + len);
    assert AddTimingObj(j, o) == Jiffy(j.fileList + [token],
                                       j.eventQue + PlaceAll(o.times.value, offset, n),
                                       IndexEvents(j.eventRef, o.times.value, |j.eventQue|, n));
    PlacedEventIsIndexed(j.fileList + [token], j.eventQue, j.eventRef, o.times.value, offset, n, k);
    TotalIsSumOfLengths(j);
  }

  /**
    In a timeline whose queue ends with placed events indexed by the index
    loop, a placed event with a distinct id is what its id resolves to.
   */
  lemma PlacedEventIsIndexed(files: seq<FileToken>, q: seq<EventToken>, refs: map<EventId, EventRef>,
                             times: seq<Span>, offset: real, n: nat, k: nat)
    requires DistinctIds(times)
    requires k < |times| && n < |files|
    ensures EventTokenFromID(Jiffy(files, q + PlaceAll(times, offset, n), IndexEvents(refs, times, |q|, n)), times[k].id)
      == Some(Place(times[k], offset, n))
    ensures FileTokenFromID(Jiffy(files, q + PlaceAll(times, offset, n), IndexEvents(refs, times, |q|, n)), times[k].id)
      == Some(files[n])
  {
    IndexEventsDistinct(refs, times, |q|, n, k);
    assert (q + PlaceAll(times, offset, n))[|q| + k] == Place(times[k], offset, n);
  }

  /**
    The constructor's `timingArray.forEach(addTimingObj)` (jiffy.js:41-43):
    the timing objects are added in order to an empty timeline. The source
    makes that call before `addTimingObj` is assigned (jiffy.js:53), from a
    callback whose `this` is not the instance; this is the evident intent.
   */
  function Build(objs: seq<TimingObj>): Jiffy
    decreases |objs|
  {
    if |objs| == 0 then Empty
    else AddTimingObj(Build(objs[..|objs| - 1]), objs[|objs| - 1])
  }

  /** The urls of the well-formed timing objects, in order. */
  function AcceptedUrls(objs: seq<TimingObj>): seq<Url>
    decreases |objs|
  {
    if |objs| == 0 then []
    else
      var o := objs[|objs| - 1];
      AcceptedUrls(objs[..|objs| - 1]) + (if CheckTimingObj(o) then [o.url.value] else [])
  }

  /** A url is accepted exactly when some well-formed timing object carries it. */
  lemma {:induction false} AcceptedUrlsMembers(objs: seq<TimingObj>)
    decreases |objs|
    ensures forall a :: 0 <= a < |objs| && CheckTimingObj(objs[a]) ==> objs[a].url.value in AcceptedUrls(objs)
    ensures forall u :: u in AcceptedUrls(objs) ==>
      exists a :: 0 <= a < |objs| && CheckTimingObj(objs[a]) && objs[a].url.value == u
  {
    if |objs| > 0 {
      var prev := objs[..|objs| - 1];
      AcceptedUrlsMembers(prev);
      assert forall a :: 0 <= a < |prev| ==> prev[a] == objs[a];
    }
  }

  /** The `times` of the well-formed timing objects, concatenated in order. */
  function AcceptedTimes(objs: seq<TimingObj>): seq<Span>
    decreases |objs|
  {
    if |objs| == 0 then []
    else
      var o := objs[|objs| - 1];
      AcceptedTimes(objs[..|objs| - 1]) + (if CheckTimingObj(o) then o.times.value else [])
  }

  /** The summed lengths of the well-formed timing objects. */
  function AcceptedLength(objs: seq<TimingObj>): real
    decreases |objs|
  {
    if |objs| == 0 then 0.0
    else
      var o := objs[|objs| - 1];
      AcceptedLength(objs[..|objs| - 1]) + (if CheckTimingObj(o) then o.lengthSeconds.value else 0.0)
  }

  /** A timeline built from any timing array satisfies the timeline invariant. */
  lemma {:induction false} BuildIsValid(objs: seq<TimingObj>)
    decreases |objs|
    ensures Valid(Build(objs))
  {
    if |objs| > 0 {
      BuildIsValid(objs[..|objs| - 1]);
      AddKeepsValid(Build(objs[..|objs| - 1]), objs[|objs| - 1]);
    }
  }

  /**
    `getFileList` of a built timeline lists the urls of the accepted timing
    objects in submission order, one file per accepted object.
   */
  lemma {:induction false} BuildFileList(objs: seq<TimingObj>)
    decreases |objs|
    ensures GetFileList(Build(objs)) == AcceptedUrls(objs)
  {
    if |objs| > 0 {
      var prev := objs[..|objs| - 1];
      var o := objs[|objs| - 1];
      BuildFileList(prev);
      var j := Build(prev);
      var r := AddTimingObj(j, o);
      if CheckTimingObj(o) {
        assert forall i :: 0 <= i < |j.fileList| ==> r.fileList[i] == j.fileList[i];
        assert GetFileList(r) == GetFileList(j) + [o.url.value];
      }
    }
  }

  /** `totalPlayTime` of a built timeline is the summed length of the accepted timing objects. */
  lemma {:induction false} BuildTotal(objs: seq<TimingObj>)
    decreases |objs|
    ensures TotalPlayTime(Build(objs)) == AcceptedLength(objs)
  {
    if |objs| > 0 {
      BuildTotal(objs[..|objs| - 1]);
    }
  }

  /**
    The event queue of a built timeline holds one event per property of the
    accepted timing objects, in submission order, each under its property's id.
   */
  lemma {:induction false} BuildEventIds(objs: seq<TimingObj>)
    decreases |objs|
    ensures |Build(objs).eventQue| == |AcceptedTimes(objs)|
    ensures forall k :: 0 <= k < |AcceptedTimes(objs)| ==> Build(objs).eventQue[k].id == AcceptedTimes(objs)[k].id
  {
    if |objs| > 0 {
      var prev := objs[..|objs| - 1];
      var o := objs[|objs| - 1];
      BuildEventIds(prev);
      if CheckTimingObj(o) {
        AddAppendsEvents(Build(prev), o);
      }
    }
  }

  /**
    When no id repeats across the accepted timing objects, a built timeline
    has unique event ids, so no `eventRef` entry was ever overwritten.
   */
  lemma BuildIdsUnique(objs: seq<TimingObj>)
    requires DistinctIds(AcceptedTimes(objs))
    ensures IdsUnique(Build(objs))
  {
    BuildEventIds(objs);
  }
}

=== FILE: controller.dfy ===
/**
  `playFromID` and `playFromTime` (jiffy.js:263-285): turn an event id or an
  absolute time into a source, a file-relative seek and a play command on
  the media element, and set the current id at once.
 */
module Controller {
  import opened Wrappers
  import opened Tokens
  import opened Lookup
  import opened Scheduler
  import opened Search

  /** Why a playback request fails: an id with no event, or a time no event holds. */
  datatype PlayError = UnknownEventId | TimeOutOfRange

  /**
    `playFromID` (jiffy.js:263-279): switch the element to the owning file's
    url, seek to the event's start relative to that file, play, and make the
    event current without waiting for the next check. The source throws on
    an unknown id, reads the file through the broken `fileTokenFromID`, and
    stores the file number in a field `currentFile` that `getCurrentTime`
    never reads; this models the evident intent, `currentFileRef`.
   */
  function PlayFromID(j: Jiffy, s: Session, id: EventId): (r: Result<Session, PlayError>)
    ensures Valid(j) ==> (r.Ok? <==> id in j.eventRef)
    ensures r.Err? ==> r.error == UnknownEventId
    ensures r.Ok? ==>
      && r.value.currentID == Some(id)
      && !r.value.player.paused
      && !r.value.player.ended
      && FileTokenFromID(j, id).Some?
      && r.value.player.src == FileTokenFromID(j, id).value.url
    ensures Valid(j) && r.Ok? ==>
      && 0 <= r.value.currentFileRef < |j.fileList|
      && r.value.player.src == j.fileList[r.value.currentFileRef].url
      && GetCurrentTime(j, r.value) == GetIDTime(j, id)
      && r.value.currentFileRef == FileTokenFromID(j, id).value.fileref
      && r.value.player.currentTime == EventTokenFromID(j, id).value.start - FileTokenFromID(j, id).value.start
  {
    match (EventTokenFromID(j, id), FileTokenFromID(j, id))
    case (Some(e), Some(f)) =>
      var src := if s.player.src != f.url then f.url else s.player.src;
      Ok(Session(Some(id), e.fileref, Player(src, e.start - f.start, false, false)))
    case _ => Err(UnknownEventId)
  }

  /**
    Right after `playFromID` the next `eventCheck` emits nothing and keeps the
    id: the eager current id agrees with the playhead, provided the event is
    non-empty and ids are unique.
   */
  lemma PlayThenCheckIsQuiet(j: Jiffy, s: Session, id: EventId)
    requires Valid(j) && IdsUnique(j)
    requires PlayFromID(j, s, id).Ok?
    requires EventTokenFromID(j, id).value.start < EventTokenFromID(j, id).value.end
    ensures EventCheck(j, PlayFromID(j, s, id).value).notices == []
    ensures EventCheck(j, PlayFromID(j, s, id).value).currentID == Some(id)
    ensures id != "" ==> EventCheck(j, PlayFromID(j, s, id).value).rearmMs.Some?
  {
  }

  /**
    `playFromTime` (jiffy.js:282-285): play from the start of the event that
    holds `t`. The source passes `undefined` on a miss; here the miss is the
    error `TimeOutOfRange`.
   */
  function PlayFromTime(j: Jiffy, s: Session, t: real): (r: Result<Session, PlayError>)
    ensures (r == Err(TimeOutOfRange)) <==> forall k :: 0 <= k < |j.eventQue| ==> !j.eventQue[k].Holds(t)
    ensures Valid(j) ==> (r.Ok? <==> exists k :: 0 <= k < |j.eventQue| && j.eventQue[k].Holds(t))
    ensures r.Ok? ==> r.value.currentID == GetTimeID(j, t)
  {
    match GetTimeID(j, t)
    case None => Err(TimeOutOfRange)
    case Some(id) => PlayFromID(j, s, id)
  }

  /**
    On an ordered queue with unique ids, `playFromTime(t)` seeks to the start of the event that
    holds `t`: the absolute playhead afterwards is that event's start, which
    is at or before `t`.
   */
  lemma PlayFromTimeSeeksToEventStart(j: Jiffy, s: Session, t: real, k: nat)
    requires Valid(j) && IdsUnique(j) && Ordered(j.eventQue)
    requires k < |j.eventQue| && j.eventQue[k].Holds(t)
    ensures PlayFromTime(j, s, t).Ok?
    ensures GetCurrentTime(j, PlayFromTime(j, s, t).value) == Some(j.eventQue[k].start)
    ensures j.eventQue[k].start <= t
  {
    TimeIDResolves(j, t);
    var id := GetTimeID(j, t).value;
    var e := EventTokenFromID(j, id).value;
    var i := j.eventRef[id].eventQueRef;
    assert e == j.eventQue[i];
    var first := FirstEventAt(j.eventQue, t, 0).value;
    assert j.eventQue[first].id == id;
    OrderedHoldsUnique(j.eventQue, first, k, t);
  }
}

=== FILE: export.dfy ===
/**
  `getTimingArray` (jiffy.js:234-259): rebuild the ingestion shape of one
  file from the absolute timeline.
 */
module Export {
  import opened Wrappers
  import opened Tokens
  import opened Lookup
  import opened Builder

  /** An event's bounds made relative to the start of file `f`. */
  function Relative(e: EventToken, f: FileToken): Span {
    Span(e.id, e.start - f.start, e.end - f.start)
  }

  /**
    The events of queue `q` owned by file `f`, in queue order, with their
    bounds made relative to the file's start again.
   */
  function RelativeTimes(q: seq<EventToken>, f: FileToken): seq<Span>
    decreases |q|
  {
    if |q| == 0 then []
    else if q[0].fileref == f.fileref then [Relative(q[0], f)] + RelativeTimes(q[1..], f)
    else RelativeTimes(q[1..], f)
  }

  /** Span `s` is the relative form of some event of `q` owned by file `f`. */
  ghost predicate ExportedFrom(q: seq<EventToken>, f: FileToken, s: Span) {
    exists i :: 0 <= i < |q| && q[i].fileref == f.fileref && s == Relative(q[i], f)
  }

  /**
    Every exported span comes from an event of the file, with the file's
    start subtracted from both bounds, and nothing else is exported.
   */
  lemma {:induction false} ExportedComeFromFile(q: seq<EventToken>, f: FileToken)
    decreases |q|
    ensures |RelativeTimes(q, f)| <= |q|
    ensures forall k :: 0 <= k < |RelativeTimes(q, f)| ==> ExportedFrom(q, f, RelativeTimes(q, f)[k])
  {
    if |q| > 0 {
      var rest := RelativeTimes(q[1..], f);
      ExportedComeFromFile(q[1..], f);
      var r := RelativeTimes(q, f);
      forall k | 0 <= k < |r|
        ensures ExportedFrom(q, f, r[k])
      {
        if q[0].fileref == f.fileref && k == 0 {
          assert r[0] == Relative(q[0], f);
        } else {
          var k' := if q[0].fileref == f.fileref then k - 1 else k;
          assert r[k] == rest[k'];
          assert ExportedFrom(q[1..], f, rest[k']);
          var i :| 0 <= i < |q[1..]| && q[1..][i].fileref == f.fileref && rest[k'] == Relative(q[1..][i], f);
          assert q[1..][i] == q[i + 1];
        }
      }
    }
  }

  /**
    `getTimingArray(url)`: the url, the file's length, and the file's events
    relative to its start. The source iterates an undefined `timingObj`; the
    evident intent is the queued events whose `fileref` is the file's.
   */
  function GetTimingArray(j: Jiffy, url: Url): (r: Option<TimingObj>)
    ensures r.Some? <==> url in GetFileList(j)
    ensures r.Some? ==>
      && r.value.url == Some(url)
      && r.value.lengthSeconds == Some(GetFileToken(j, url).value.len)
      && r.value.times.Some?
  {
    match GetFileToken(j, url)
    case None => None
    case Some(f) => Some(TimingObj(Some(url), Some(f.len), Some(RelativeTimes(j.eventQue, f))))
  }

  /** Exporting a concatenated queue exports each part in turn. */
  lemma {:induction false} RelativeTimesAppend(a: seq<EventToken>, b: seq<EventToken>, f: FileToken)
    decreases |a|
    ensures RelativeTimes(a + b, f) == RelativeTimes(a, f) + RelativeTimes(b, f)
  {
    if |a| == 0 {
      assert a + b == b;
    } else {
      assert (a + b)[0] == a[0];
      assert (a + b)[1..] == a[1..] + b;
      RelativeTimesAppend(a[1..], b, f);
      if a[0].fileref == f.fileref {
        var s := Relative(a[0], f);
        calc {
          RelativeTimes(a + b, f);
          [s] + RelativeTimes(a[1..] + b, f);
          [s] + (RelativeTimes(a[1..], f) + RelativeTimes(b, f));
          ([s] + RelativeTimes(a[1..], f)) + RelativeTimes(b, f);
          RelativeTimes(a, f) + RelativeTimes(b, f);
        }
      }
    }
  }

  /** A queue that holds no event of file `f` exports nothing for it. */
  lemma {:induction false} RelativeTimesForeign(q: seq<EventToken>, f: FileToken)
    requires forall i :: 0 <= i < |q| ==> q[i].fileref != f.fileref
    decreases |q|
    ensures RelativeTimes(q, f) == []
  {
    if |q| > 0 {
      RelativeTimesForeign(q[1..], f);
    }
  }

  /** Events placed into file `f` at its start come back as the spans they were placed from. */
  lemma {:induction false} RelativeTimesPlaced(times: seq<Span>, f: FileToken)
    decreases |times|
    ensures RelativeTimes(PlaceAll(times, f.start, f.fileref), f) == times
  {
    if |times| > 0 {
      var placed := PlaceAll(times, f.start, f.fileref);
      assert placed[1..] == PlaceAll(times[1..], f.start, f.fileref);
      RelativeTimesPlaced(times[1..], f);
      assert placed[0] == Place(times[0], f.start, f.fileref);
      assert [times[0]] + times[1..] == times;
    }
  }

  /**
    Round trip: after a well-formed timing object is added under a url the
    timeline did not have yet, `getTimingArray` of that url returns the same
    url, the same length and the same times.
   */
  lemma RoundTrip(j: Jiffy, o: TimingObj)
    requires Valid(j)
    requires CheckTimingObj(o)
    requires o.url.value !in GetFileList(j)
    ensures GetTimingArray(AddTimingObj(j, o), o.url.value) == Some(o)
  {
    var r := AddTimingObj(j, o);
    var n := |j.fileList|;
    var f := r.fileList[n];
    assert GetFileList(r)[n] == o.url.value;
    assert GetFileToken(r, o.url.value) == Some(f) by {
      var g := GetFileToken(r, o.url.value).value;
      assert forall k :: 0 <= k < n ==> r.fileList[k] == j.fileList[k];
      AddKeepsValid(j, o);
      assert g.fileref == n;
    }
    assert f.start == TotalPlayTime(j) && f.fileref == n;
    assert r.eventQue == j.eventQue + PlaceAll(o.times.value, f.start, f.fileref);
    RelativeTimesAppend(j.eventQue, PlaceAll(o.times.value, f.start, f.fileref), f);
    RelativeTimesForeign(j.eventQue, f);
    RelativeTimesPlaced(o.times.value, f);
    assert RelativeTimes(r.eventQue, f) == o.times.value;
    assert f.len == o.lengthSeconds.value;
    assert o == TimingObj(Some(o.url.value), Some(o.lengthSeconds.value), Some(o.times.value));
  }

  /** Adding a timing object keeps the file every known url resolves to. */
  lemma AddKeepsFileToken(j: Jiffy, o: TimingObj, url: Url)
    requires Valid(j)
    requires url in GetFileList(j)
    ensures GetFileToken(AddTimingObj(j, o), url) == GetFileToken(j, url)
  {
    if CheckTimingObj(o) {
      var r := AddTimingObj(j, o);
      var n := |j.fileList|;
      var f := GetFileToken(j, url).value;
      AddKeepsValid(j, o);
      assert forall k :: 0 <= k < n ==> r.fileList[k] == j.fileList[k];
      var i :| 0 <= i < n && j.fileList[i] == f;
      assert GetFileList(r)[i] == url;
      var g := GetFileToken(r, url).value;
      var x :| 0 <= x < |r.fileList| && r.fileList[x] == g;
      assert x <= i;
    }
  }

  /**
    Adding a timing object leaves the export of every url the timeline
    already had unchanged: the url still finds the same file, and the new
    events belong to the new file only.
   */
  lemma AddKeepsExport(j: Jiffy, o: TimingObj, url: Url)
    requires Valid(j)
    requires url in GetFileList(j)
    ensures GetTimingArray(AddTimingObj(j, o), url) == GetTimingArray(j, url)
  {
    AddKeepsFileToken(j, o, url);
    if CheckTimingObj(o) {
      var f := GetFileToken(j, url).value;
      var placed := PlaceAll(o.times.value, TotalPlayTime(j), |j.fileList|);
      var i :| 0 <= i < |j.fileList| && j.fileList[i] == f;
      assert f.fileref < |j.fileList|;
      AddAppendsEvents(j, o);
      RelativeTimesAppend(j.eventQue, placed, f);
      RelativeTimesForeign(placed, f);
      assert RelativeTimes(AddTimingObj(j, o).eventQue, f) == RelativeTimes(j.eventQue, f);
    }
  }

  /**
    Round trip for a whole timing array: when no two well-formed objects
    share a url, `getTimingArray` returns each well-formed object unchanged.
   */
  lemma {:induction false} BuildRoundTrip(objs: seq<TimingObj>, i: nat)
    requires i < |objs| && CheckTimingObj(objs[i])
    requires forall a, b :: 0 <= a < b < |objs| && CheckTimingObj(objs[a]) && CheckTimingObj(objs[b]) ==>
      objs[a].url.value != objs[b].url.value
    decreases |objs|
    ensures GetTimingArray(Build(objs), objs[i].url.value) == Some(objs[i])
  {
    var prev := objs[..|objs| - 1];
    var o := objs[|objs| - 1];
    assert forall a :: 0 <= a < |prev| ==> prev[a] == objs[a];
    BuildIsValid(prev);
    BuildFileList(prev);
    AcceptedUrlsMembers(prev);
    if i == |objs| - 1 {
      RoundTrip(Build(prev), o);
    } else {
      BuildRoundTrip(prev, i);
      AddKeepsExport(Build(prev), o, objs[i].url.value);
    }
  }
}

=== FILE: findings.dfy ===
/**
  The event lookup of jiffy.js:141-144 exactly as written, with its strict
  test on both bounds, and a timeline on which it misses the event whose
  start it is asked about.
 */
module AsWritten {
  import opened Wrappers
  import opened Tokens
  import opened Scenarios

  /** The source's test: strictly after the start and strictly before the end. */
  predicate StrictlyInside(e: EventToken, t: real) {
    e.start < t < e.end
  }

  /** The first position from `from` whose event strictly contains `t`. */
  function FirstStrictAt(q: seq<EventToken>, t: real, from: nat): (r: Option<nat>)
    requires from <= |q|
    decreases |q| - from
    ensures r.Some? ==> from <= r.value < |q| && StrictlyInside(q[r.value], t)
    ensures r.None? ==> forall k :: from <= k < |q| ==> !StrictlyInside(q[k], t)
  {
    if from == |q| then None
    else if StrictlyInside(q[from], t) then Some(from)
    else FirstStrictAt(q, t, from + 1)
  }

  /** `getTimeID` as written (jiffy.js:138-145). */
  function GetTimeIDStrict(j: Jiffy, t: real): (r: Option<EventId>)
    ensures r.None? ==> forall k :: 0 <= k < |j.eventQue| ==> !StrictlyInside(j.eventQue[k], t)
  {
    match FirstStrictAt(j.eventQue, t, 0)
    case None => None
    case Some(i) => Some(j.eventQue[i].id)
  }

  /**
    On the `a.mp3` timeline (`x` on [0, 4), `y` on [4, 10)) the lookup as
    written finds nothing at 0, the start of `x`, nor at 4, the start of `y`;
    so `playFromTime(0)` has no event to play and a playhead sitting on a
    boundary starts no event.
   */
  lemma StrictLookupMissesEventStarts()
    ensures TimelineA.eventQue[0].start == 0.0 && TimelineA.eventQue[1].start == 4.0
    ensures GetTimeIDStrict(TimelineA, 0.0) == None
    ensures GetTimeIDStrict(TimelineA, 4.0) == None
  {
    assert !StrictlyInside(TimelineA.eventQue[0], 0.0) && !StrictlyInside(TimelineA.eventQue[1], 0.0);
    assert !StrictlyInside(TimelineA.eventQue[0], 4.0) && !StrictlyInside(TimelineA.eventQue[1], 4.0);
  }
}

=== FILE: lookup.dfy ===
/**
  The read-only queries of jiffy.js (jiffy.js:119-231): id to event and file,
  time to event id, time to file and file-relative time, and the per-url
  file queries.
 */
module Lookup {
  import opened Wrappers
  import opened Tokens

  /** `eventTokenFromID` (jiffy.js:119-122): the queued event `eventRef[id]` points at. */
  function EventTokenFromID(j: Jiffy, id: EventId): (r: Option<EventToken>)
    ensures r.Some? ==> id in j.eventRef && r.value in j.eventQue
  {
    if id in j.eventRef && j.eventRef[id].eventQueRef < |j.eventQue| then
      Some(j.eventQue[j.eventRef[id].eventQueRef])
    else
      None
  }

  /**
    `fileTokenFromID` (jiffy.js:124-127): the file that owns event `id`. The
    source reads an undefined `fileQue`; the evident intent is the file token
    at `eventRef[id].fileref`.
   */
  function FileTokenFromID(j: Jiffy, id: EventId): (r: Option<FileToken>)
    ensures r.Some? ==> id in j.eventRef && r.value in j.fileList
  {
    if id in j.eventRef && j.eventRef[id].fileref < |j.fileList| then
      Some(j.fileList[j.eventRef[id].fileref])
    else
      None
  }

  /** `getIDTime` (jiffy.js:148-151): the absolute start of event `id`. */
  function GetIDTime(j: Jiffy, id: EventId): (r: Option<real>)
    ensures r.Some? ==> exists i :: 0 <= i < |j.eventQue| && j.eventQue[i].start == r.value
  {
    match EventTokenFromID(j, id)
    case None => None
    case Some(e) => Some(e.start)
  }

  /**
    On a valid timeline the id lookups succeed exactly for indexed ids: the
    event found carries the id, `getIDTime` is its start, and the file found
    is the one that owns it.
   */
  lemma IdLookups(j: Jiffy, id: EventId)
    requires Valid(j)
    ensures EventTokenFromID(j, id).Some? <==> id in j.eventRef
    ensures FileTokenFromID(j, id).Some? <==> id in j.eventRef
    ensures GetIDTime(j, id).Some? <==> id in j.eventRef
    ensures id in j.eventRef ==>
      && EventTokenFromID(j, id).value.id == id
      && GetIDTime(j, id) == Some(EventTokenFromID(j, id).value.start)
      && FileTokenFromID(j, id).value == j.fileList[EventTokenFromID(j, id).value.fileref]
      && FileTokenFromID(j, id).value.fileref == EventTokenFromID(j, id).value.fileref
  {
  }

  /**
    The linear scan of `getTimeID` (jiffy.js:141-144) from position `from`:
    the first queued event whose interval holds `t`.
   */
  function FirstEventAt(q: seq<EventToken>, t: real, from: nat): (r: Option<nat>)
    requires from <= |q|
    decreases |q| - from
    ensures r.Some? ==>
      && from <= r.value < |q|
      && q[r.value].Holds(t)
      && (forall k :: from <= k < r.value ==> !q[k].Holds(t))
    ensures r.None? ==> forall k :: from <= k < |q| ==> !q[k].Holds(t)
  {
    if from == |q| then None
    else if q[from].Holds(t) then Some(from)
    else FirstEventAt(q, t, from + 1)
  }

  /**
    `getTimeID` (jiffy.js:138-145): the id of the first event holding `t`, or
    nothing when `t` falls in no event. The source's test is strict on both
    ends; the model uses the half-open rule throughout.
   */
  function GetTimeID(j: Jiffy, t: real): (r: Option<EventId>)
    ensures r.Some? <==> exists k :: 0 <= k < |j.eventQue| && j.eventQue[k].Holds(t)
    ensures r.Some? ==> exists k :: 0 <= k < |j.eventQue| && j.eventQue[k].Holds(t) && j.eventQue[k].id == r.value
  {
    match FirstEventAt(j.eventQue, t, 0)
    case None => None
    case Some(i) => Some(j.eventQue[i].id)
  }

  /** The first file token from position `from` whose span holds `t`. */
  function FirstFileAt(files: seq<FileToken>, t: real, from: nat): (r: Option<nat>)
    requires from <= |files|
    decreases |files| - from
    ensures r.Some? ==>
      && from <= r.value < |files|
      && files[r.value].Holds(t)
      && (forall k :: from <= k < r.value ==> !files[k].Holds(t))
    ensures r.None? ==> forall k :: from <= k < |files| ==> !files[k].Holds(t)
  {
    if from == |files| then None
    else if files[from].Holds(t) then Some(from)
    else FirstFileAt(files, t, from + 1)
  }

  /**
    `fileFromTime` (jiffy.js:179-183): the file whose span holds absolute time
    `t`. The source's `forEach` callback returns into nothing; the evident
    intent is the first matching file.
   */
  function FileFromTime(j: Jiffy, t: real): (r: Option<FileToken>)
    ensures r.Some? ==> r.value in j.fileList && r.value.Holds(t)
    ensures r.None? ==> forall k :: 0 <= k < |j.fileList| ==> !j.fileList[k].Holds(t)
  {
    match FirstFileAt(j.fileList, t, 0)
    case None => None
    case Some(i) => Some(j.fileList[i])
  }

  /** `toRelativeTime` (jiffy.js:186-191): `t` measured from the start of the file holding it. */
  function ToRelativeTime(j: Jiffy, t: real): (r: Option<real>)
    ensures r.Some? <==> FileFromTime(j, t).Some?
    ensures Valid(j) && r.Some? ==>
      && 0.0 <= r.value < FileFromTime(j, t).value.len
      && FileFromTime(j, t).value.start + r.value == t
  {
    match FileFromTime(j, t)
    case None => None
    case Some(f) => Some(t - f.start)
  }

  /**
    `totalPlayTime` (jiffy.js:194-199): where the last file ends. The source
    calls `.last()` on an empty list; the model gives 0 for a timeline with
    no files.
   */
  function TotalPlayTime(j: Jiffy): real {
    if |j.fileList| == 0 then 0.0
    else j.fileList[|j.fileList| - 1].start + j.fileList[|j.fileList| - 1].len
  }

  /** `getFileList` (jiffy.js:202-210): the urls of the files, in file order. */
  function GetFileList(j: Jiffy): (r: seq<Url>)
    ensures |r| == |j.fileList|
    ensures forall i :: 0 <= i < |r| ==> r[i] == j.fileList[i].url
  {
    seq(|j.fileList|, i requires 0 <= i < |j.fileList| => j.fileList[i].url)
  }

  /** The first file token from position `from` whose url is `url`. */
  function FirstFileWithUrl(files: seq<FileToken>, url: Url, from: nat): (r: Option<nat>)
    requires from <= |files|
    decreases |files| - from
    ensures r.Some? ==>
      && from <= r.value < |files|
      && files[r.value].url == url
      && (forall k :: from <= k < r.value ==> files[k].url != url)
    ensures r.None? ==> forall k :: from <= k < |files| ==> files[k].url != url
  {
    if from == |files| then None
    else if files[from].url == url then Some(from)
    else FirstFileWithUrl(files, url, from + 1)
  }

  /**
    `getFileToken` (jiffy.js:213-217): the first file token with this url.
    As in `fileFromTime`, the source's `forEach` return is taken as a search.
   */
  function GetFileToken(j: Jiffy, url: Url): (r: Option<FileToken>)
    ensures r.Some? <==> url in GetFileList(j)
    ensures r.Some? ==> r.value.url == url && r.value in j.fileList
    ensures Valid(j) && r.Some? ==> forall k :: 0 <= k < r.value.fileref ==> j.fileList[k].url != url
  {
    match FirstFileWithUrl(j.fileList, url, 0)
    case None =>
      assert forall i :: 0 <= i < |j.fileList| ==> GetFileList(j)[i] != url;
      None
    case Some(i) =>
      assert GetFileList(j)[i] == url;
      Some(j.fileList[i])
  }

  /** `getFileStartTime` (jiffy.js:228-231): the absolute offset of the file with this url. */
  function GetFileStartTime(j: Jiffy, url: Url): (r: Option<real>)
    ensures r.Some? <==> url in GetFileList(j)
  {
    match GetFileToken(j, url)
    case None => None
    case Some(f) => Some(f.start)
  }

  /** The start of the file with a given url is the sum of the lengths of the files before it. */
  lemma FileStartIsEarlierLengths(j: Jiffy, url: Url)
    requires Valid(j)
    requires url in GetFileList(j)
    ensures GetFileToken(j, url).Some?
    ensures GetFileStartTime(j, url) == Some(SumLengths(j.fileList[..GetFileToken(j, url).value.fileref]))
  {
    StartIsSumOfEarlierLengths(j.fileList, GetFileToken(j, url).value.fileref);
  }

  /**
    With unique ids, the id `getTimeID` returns resolves through `eventRef`
    to the very event that holds the time.
   */
  lemma TimeIDResolves(j: Jiffy, t: real)
    requires Valid(j) && IdsUnique(j)
    requires GetTimeID(j, t).Some?
    ensures EventTokenFromID(j, GetTimeID(j, t).value).Some?
    ensures EventTokenFromID(j, GetTimeID(j, t).value).value.Holds(t)
  {
    var i := FirstEventAt(j.eventQue, t, 0).value;
    var id := j.eventQue[i].id;
    var p := j.eventRef[id].eventQueRef;
    assert j.eventQue[p].id == j.eventQue[i].id;
  }

  /** In a contiguous file list, file `n` ends at the sum of the lengths of files 0..n. */
  lemma {:induction false} EndIsSumOfLengths(files: seq<FileToken>, n: nat)
    requires Contiguous(files)
    requires n < |files|
    ensures files[n].end == SumLengths(files[..n + 1])
  {
    assert files[..n + 1][..n] == files[..n];
    if n == 0 {
    } else {
      EndIsSumOfLengths(files, n - 1);
      assert files[..n][..n] == files[..n];
    }
  }

  /** In a contiguous file list, file `n` starts at the sum of the lengths of the files before it. */
  lemma StartIsSumOfEarlierLengths(files: seq<FileToken>, n: nat)
    requires Contiguous(files)
    requires n < |files|
    ensures files[n].start == SumLengths(files[..n])
  {
    if n > 0 {
      EndIsSumOfLengths(files, n - 1);
    }
  }

  /** `totalPlayTime` is the sum of the lengths of all files. */
  lemma TotalIsSumOfLengths(j: Jiffy)
    requires Valid(j)
    ensures TotalPlayTime(j) == SumLengths(j.fileList)
  {
    var n := |j.fileList|;
    if n > 0 {
      EndIsSumOfLengths(j.fileList, n - 1);
      assert j.fileList[..n] == j.fileList;
    }
  }

  /** Every file has a positive length (the source only rejects a zero length). */
  predicate PositiveLengths(j: Jiffy) {
    forall i :: 0 <= i < |j.fileList| ==> j.fileList[i].len > 0.0
  }

  /**
    Files tile the timeline: with positive lengths, every absolute time in
    [0, totalPlayTime) lies in exactly one file, and `fileFromTime` returns
    that file.
   */
  lemma {:induction false} FilesTileTimeline(j: Jiffy, t: real)
    requires Valid(j) && PositiveLengths(j)
    requires 0.0 <= t < TotalPlayTime(j)
    ensures FileFromTime(j, t).Some?
    ensures forall k :: 0 <= k < |j.fileList| && j.fileList[k].Holds(t) ==> FileFromTime(j, t) == Some(j.fileList[k])
  {
    var files := j.fileList;
    var n := |files|;
    // the last file whose start is at or before t holds it
    var i := LastStartAtOrBefore(files, t, n - 1);
    assert files[i].Holds(t) by {
      if i + 1 < n {
        assert files[i + 1].start == files[i].end;
      } else {
        assert files[n - 1].end == TotalPlayTime(j);
      }
    }
    forall k | 0 <= k < n && files[k].Holds(t)
      ensures k == i
    {
      HoldsUnique(files, k, i, t);
    }
  }

  /** With positive lengths, at most one file of a contiguous list holds a given time. */
  lemma HoldsUnique(files: seq<FileToken>, a: nat, b: nat, t: real)
    requires Contiguous(files)
    requires forall i :: 0 <= i < |files| ==> files[i].len > 0.0
    requires a < |files| && b < |files|
    requires files[a].Holds(t) && files[b].Holds(t)
    ensures a == b
  {
    forall x, y | 0 <= x < y < |files|
      ensures files[x].end <= files[y].start
    {
      StartsIncrease(files, x, y);
    }
  }

  /** The largest index at most `hi` whose file starts at or before `t`. */
  lemma {:induction false} LastStartAtOrBefore(files: seq<FileToken>, t: real, hi: nat) returns (i: nat)
    requires Contiguous(files) && 0.0 <= t && hi < |files|
    ensures i <= hi && files[i].start <= t
    ensures i < hi ==> t < files[i + 1].start
  {
    if hi == 0 {
      assert files[0].start == 0.0;
      i := 0;
    } else if files[hi].start <= t {
      i := hi;
    } else {
      i := LastStartAtOrBefore(files, t, hi - 1);
    }
  }

  /** With positive lengths, file starts strictly increase along the list. */
  lemma {:induction false} StartsIncrease(files: seq<FileToken>, a: nat, b: nat)
    requires Contiguous(files)
    requires forall i :: 0 <= i < |files| ==> files[i].len > 0.0
    requires a <= b < |files|
    ensures files[a].start <= files[b].start
    ensures a < b ==> files[a].end <= files[b].start
  {
    if a < b {
      StartsIncrease(files, a, b - 1);
      assert files[b].start == files[b - 1].end;
    }
  }
}

=== FILE: scenarios.dfy ===
/**
  Concrete timelines worked through the model: one file with two events,
  two files with an event in the second, and a seek while an event is being
  watched.
 */
module Scenarios {
  import opened Wrappers
  import opened Tokens
  import opened Lookup
  import opened Builder
  import opened Export
  import opened Scheduler

  /** `a.mp3`, ten seconds long, with `x` on [0, 4) and `y` on [4, 10). */
  const FileA: TimingObj := TimingObj(Some("a.mp3"), Some(10.0), Some([Span("x", 0.0, 4.0), Span("y", 4.0, 10.0)]))

  /** Two five-second files; the second holds `z` on [1, 2) relative to its start. */
  const FileB1: TimingObj := TimingObj(Some("b1.mp3"), Some(5.0), Some([Span("w", 0.0, 5.0)]))
  const FileB2: TimingObj := TimingObj(Some("b2.mp3"), Some(5.0), Some([Span("z", 1.0, 2.0)]))

  /** The timeline built from `a.mp3` alone. */
  const TimelineA: Jiffy := Jiffy(
    [FileToken("a.mp3", 0, 0.0, 10.0, 10.0)],
    [EventToken("x", 0.0, 4.0, 0), EventToken("y", 4.0, 10.0, 0)],
    map["x" := EventRef(0, 0), "y" := EventRef(1, 0)])

  /** Building from `a.mp3` places the file at 0 and indexes `x` and `y` at queue positions 0 and 1. */
  lemma BuildFileA()
    ensures Build([FileA]) == TimelineA
  {
    assert [FileA][..0] == [];
    assert CheckTimingObj(FileA);
    var times := FileA.times.value;
    var placed := PlaceAll(times, 0.0, 0);
    assert placed == [EventToken("x", 0.0, 4.0, 0), EventToken("y", 4.0, 10.0, 0)];
    assert times[1..] == [Span("y", 4.0, 10.0)];
    assert IndexEvents(map[], times, 0, 0) == map["x" := EventRef(0, 0), "y" := EventRef(1, 0)];
  }

  /** Time 2 is in `x` and time 7 in `y`. */
  lemma OneFileLocate()
    ensures GetTimeID(Build([FileA]), 2.0) == Some("x")
    ensures GetTimeID(Build([FileA]), 7.0) == Some("y")
  {
    BuildFileA();
    assert TimelineA.eventQue[0].Holds(2.0);
    assert !TimelineA.eventQue[0].Holds(7.0) && TimelineA.eventQue[1].Holds(7.0);
  }

  /** Exporting `a.mp3` gives back its timing object. */
  lemma OneFileExport()
    ensures GetTimingArray(Build([FileA]), "a.mp3") == Some(FileA)
  {
    assert [FileA][..0] == [];
    assert Valid(Empty);
    RoundTrip(Empty, FileA);
  }

  /** `z`, at [1, 2) in the second five-second file, is at [6, 7) on the timeline. */
  lemma TwoFileScenario()
    ensures EventTokenFromID(Build([FileB1, FileB2]), "z") == Some(EventToken("z", 6.0, 7.0, 1))
  {
    assert [FileB1, FileB2][..1] == [FileB1];
    assert [FileB1][..0] == [];
    var j := Build([FileB1]);
    BuildIsValid([FileB1]);
    BuildTotal([FileB1]);
    assert CheckTimingObj(FileB1) && CheckTimingObj(FileB2);
    assert [FileB1, FileB2][..1][..0] == [];
    TotalIsSumOfLengths(j);
    assert SumLengths(j.fileList) == 5.0;
    assert |j.fileList| == 1;
    AddedEventsAreIndexed(j, FileB2, 0);
  }

  /**
    Watching `x` when the playhead is found at 8: `x` ends, `y` starts and
    becomes current, and the check re-arms for the 2 s left in `y` plus the
    slack.
   */
  lemma SeekWhileWatchingScenario()
    ensures Step(Build([FileA]), Some("x"), 8.0) == Tick([OnEnd("x"), OnStart("y")], Some("y"), Some(2005.0))
  {
    BuildFileA();
    assert !TimelineA.eventQue[0].Holds(8.0) && TimelineA.eventQue[1].Holds(8.0);
  }
}

=== FILE: scheduler.dfy ===
/**
  The boundary checker `eventCheck` and its cancellation `eventCheckCancel`
  (jiffy.js:78-102), as one pure step: given the current event id and the
  playhead, the notifications to emit, the next current id, and the delay
  after which the check is re-armed. Timers and the media element are not
  modelled; the element's state is a small record.
 */
module Scheduler {
  import opened Wrappers
  import opened Tokens
  import opened Lookup

  /** What the checker reads from the media element (jiffy.js:83, 132). */
  datatype Player = Player(src: Url, currentTime: real, paused: bool, ended: bool)

  /**
    The playback part of a Jiffy instance: the current event id (`-1` in the
    source, `None` here), the current file number, and the media element.
   */
  datatype Session = Session(currentID: Option<EventId>, currentFileRef: int, player: Player)

  /** A notification to the host: `onStartEvent(id)` or `onEndEvent(id)`. */
  datatype Notice = OnStart(id: EventId) | OnEnd(id: EventId)

  /**
    The outcome of one check: notifications in emission order, the new
    current id, and the re-arm delay in milliseconds (`None` when the check
    does not re-arm).
   */
  datatype Tick = Tick(notices: seq<Notice>, currentID: Option<EventId>, rearmMs: Option<real>)

  /** The slack added to every re-arm delay (jiffy.js:96). */
  const SlackMs: real := 5.0

  /**
    `getCurrentTime` (jiffy.js:130-135): the element's file-relative time made
    absolute with the current file's offset; nothing when there is no
    current file.
   */
  function GetCurrentTime(j: Jiffy, s: Session): (r: Option<real>)
    ensures r.Some? <==> 0 <= s.currentFileRef < |j.fileList|
    ensures Valid(j) && r.Some? && 0.0 <= s.player.currentTime < j.fileList[s.currentFileRef].len ==>
      j.fileList[s.currentFileRef].Holds(r.value)
  {
    if 0 <= s.currentFileRef < |j.fileList| then
      Some(j.fileList[s.currentFileRef].start + s.player.currentTime)
    else
      None
  }

  /**
    `getCurrentTime` inverts `toRelativeTime`: when the element's time lies
    within the current file, the absolute playhead is found in that file
    again and maps back to the element's time.
   */
  lemma CurrentTimeIsRelative(j: Jiffy, s: Session)
    requires Valid(j) && PositiveLengths(j)
    requires 0 <= s.currentFileRef < |j.fileList|
    requires 0.0 <= s.player.currentTime < j.fileList[s.currentFileRef].len
    ensures FileFromTime(j, GetCurrentTime(j, s).value) == Some(j.fileList[s.currentFileRef])
    ensures ToRelativeTime(j, GetCurrentTime(j, s).value) == Some(s.player.currentTime)
  {
    var t := GetCurrentTime(j, s).value;
    var f := FileFromTime(j, t).value;
    var i :| 0 <= i < |j.fileList| && j.fileList[i] == f;
    HoldsUnique(j.fileList, i, s.currentFileRef, t);
  }

  /** The re-arm delay for an event ending at `end`: the remaining time in ms plus the slack. */
  function RearmMs(end: real, playhead: real): real {
    (end - playhead) * 1000.0 + SlackMs
  }

  /** `onEndEvent` for the current id, if there is one. */
  function EndOf(id: Option<EventId>): seq<Notice> {
    match id
    case None => []
    case Some(x) => [OnEnd(x)]
  }

  /** `onStartEvent` for the new id, if there is one. */
  function StartOf(id: Option<EventId>): seq<Notice> {
    match id
    case None => []
    case Some(x) => [OnStart(x)]
  }

  /** The event the current id names, if it names one. */
  function CurrentEvent(j: Jiffy, current: Option<EventId>): Option<EventToken> {
    match current
    case None => None
    case Some(id) => EventTokenFromID(j, id)
  }

  /**
    Reading `notices` from a state where event `open` is the one started and
    not yet ended (`None`: no such event), every start comes when no event
    is open, every end closes exactly the open event, and the state reached
    is `close`. This is "exactly one onEnd per onStart, in order".
   */
  predicate Bracketed(open: Option<EventId>, notices: seq<Notice>, close: Option<EventId>)
    decreases |notices|
  {
    if |notices| == 0 then open == close
    else
      match notices[0]
      case OnStart(id) => open.None? && Bracketed(Some(id), notices[1..], close)
      case OnEnd(id) => open == Some(id) && Bracketed(None, notices[1..], close)
  }

  /**
    The boundary step of `eventCheck` (jiffy.js:85-96) at absolute playhead
    `playhead`. While the current event still holds the playhead nothing is
    emitted and the check re-arms for the event's end plus the slack.
    Otherwise the current event is ended, the event holding the playhead (if
    any) is started and becomes current, and the check re-arms for its end.
    Deviations from the source: the source compares with a closed interval;
    it throws before any callback when no event is current, and passes
    `undefined` to `onStartEvent` when none is found, which this step does
    not emit; it assigns the new id to a local
    variable instead of `this.currentID`; and it reads `.end` off an
    `eventRef` entry, which has none. When no event holds the playhead the
    step re-arms after the slack alone.
   */
  function Step(j: Jiffy, current: Option<EventId>, playhead: real): (r: Tick)
    ensures Bracketed(current, r.notices, r.currentID)
    ensures r.rearmMs.Some?
    ensures CurrentEvent(j, current).Some? && CurrentEvent(j, current).value.Holds(playhead) ==>
      && r.notices == []
      && r.currentID == current
      && r.rearmMs.value > SlackMs
      && playhead + (r.rearmMs.value - SlackMs) / 1000.0 == CurrentEvent(j, current).value.end
    ensures !(CurrentEvent(j, current).Some? && CurrentEvent(j, current).value.Holds(playhead)) ==>
      && r.currentID == GetTimeID(j, playhead)
      && r.notices == EndOf(current) + StartOf(r.currentID)
      && |r.notices| <= 2
      && (current.Some? ==> r.notices[0] == OnEnd(current.value))
      && (r.currentID.Some? ==> r.notices[|r.notices| - 1] == OnStart(r.currentID.value))
  {
    var ev := CurrentEvent(j, current);
    if ev.Some? && ev.value.Holds(playhead) then
      Tick([], current, Some(RearmMs(ev.value.end, playhead)))
    else
      var next := GetTimeID(j, playhead);
      var nextEv := CurrentEvent(j, next);
      Tick(EndOf(current) + StartOf(next), next,
           Some(if nextEv.Some? then RearmMs(nextEv.value.end, playhead) else SlackMs))
  }

  /** The current id agrees with the playhead: it names the event holding it, or none holds it. */
  predicate InSync(j: Jiffy, current: Option<EventId>, playhead: real) {
    match current
    case None => forall k :: 0 <= k < |j.eventQue| ==> !j.eventQue[k].Holds(playhead)
    case Some(id) => EventTokenFromID(j, id).Some? && EventTokenFromID(j, id).value.Holds(playhead)
  }

  /**
    After a step the current id is in sync with the playhead, and the re-arm
    delay lands exactly the slack after the current event's end (the slack
    alone when no event holds the playhead).
   */
  lemma StepSynchronises(j: Jiffy, current: Option<EventId>, playhead: real)
    requires Valid(j) && IdsUnique(j)
    ensures InSync(j, Step(j, current, playhead).currentID, playhead)
    ensures Step(j, current, playhead).currentID.None? ==> Step(j, current, playhead).rearmMs == Some(SlackMs)
    ensures Step(j, current, playhead).currentID.Some? ==>
      && Step(j, current, playhead).rearmMs.value > SlackMs
      && playhead + (Step(j, current, playhead).rearmMs.value - SlackMs) / 1000.0
         == EventTokenFromID(j, Step(j, current, playhead).currentID.value).value.end
  {
    var ev := CurrentEvent(j, current);
    if !(ev.Some? && ev.value.Holds(playhead)) && GetTimeID(j, playhead).Some? {
      TimeIDResolves(j, playhead);
    }
  }

  /** A second check at the same playhead emits nothing: notifications never repeat on re-arm. */
  lemma StepIsQuietWhenInSync(j: Jiffy, current: Option<EventId>, playhead: real)
    requires Valid(j) && IdsUnique(j)
    ensures Step(j, Step(j, current, playhead).currentID, playhead).notices == []
    ensures Step(j, Step(j, current, playhead).currentID, playhead).currentID == Step(j, current, playhead).currentID
  {
    StepSynchronises(j, current, playhead);
    var next := Step(j, current, playhead).currentID;
    if next.None? {
      assert GetTimeID(j, playhead).None?;
    }
  }

  /**
    The exit test of `eventCheck` (jiffy.js:83): a paused or ended element, or
    a falsy current id. Event ids are object keys, so the only falsy one is
    the empty string; the `-1` sentinel (`None` here) is truthy.
   */
  predicate Stopped(s: Session) {
    s.player.paused || s.player.ended || s.currentID == Some("")
  }

  /**
    `eventCheck` (jiffy.js:81-97): a stopped check ends the loop without
    notifications; otherwise the step runs at the absolute playhead. With no
    current id, or an id with no event, the source throws in
    `eventTokenFromID`; here the lookup misses and the step treats the
    playhead as outside the current event. With no current file the source
    would throw as well; here the loop stops.
   */
  function EventCheck(j: Jiffy, s: Session): (r: Tick)
    ensures Bracketed(s.currentID, r.notices, r.currentID)
    ensures Stopped(s) ==> r.notices == [] && r.rearmMs.None? && r.currentID == s.currentID
    ensures r.rearmMs.Some? <==> !Stopped(s) && GetCurrentTime(j, s).Some?
    ensures !Stopped(s) && GetCurrentTime(j, s).Some? ==> r == Step(j, s.currentID, GetCurrentTime(j, s).value)
  {
    if Stopped(s) then
      Tick([], s.currentID, None)
    else
      match GetCurrentTime(j, s)
      case None => Tick([], s.currentID, None)
      case Some(playhead) => Step(j, s.currentID, playhead)
  }

  /**
    `eventCheckCancel` (jiffy.js:99-102): end the current event and clear the
    current id. The source calls `onEndEvent(-1)` when nothing is current;
    here nothing is emitted then.
   */
  function EventCheckCancel(s: Session): (r: (seq<Notice>, Session))
    ensures Bracketed(s.currentID, r.0, None)
    ensures r.1.currentID.None?
    ensures s.currentID.Some? ==> r.0 == [OnEnd(s.currentID.value)]
    ensures s.currentID.None? ==> r.0 == []
    ensures r.1.player == s.player && r.1.currentFileRef == s.currentFileRef
  {
    (EndOf(s.currentID), s.(currentID := None))
  }

  /** Bracketed runs compose: one that ends where the next begins joins into one. */
  lemma {:induction false} BracketedJoin(a: Option<EventId>, n1: seq<Notice>, b: Option<EventId>, n2: seq<Notice>, c: Option<EventId>)
    requires Bracketed(a, n1, b) && Bracketed(b, n2, c)
    decreases |n1|
    ensures Bracketed(a, n1 + n2, c)
  {
    if |n1| == 0 {
      assert n1 + n2 == n2;
    } else {
      assert (n1 + n2)[0] == n1[0];
      assert (n1 + n2)[1..] == n1[1..] + n2;
      match n1[0]
      case OnStart(id) => BracketedJoin(Some(id), n1[1..], b, n2, c);
      case OnEnd(id) => BracketedJoin(None, n1[1..], b, n2, c);
    }
  }

  /** The notifications of successive checks at the given playheads, and the final current id. */
  function Run(j: Jiffy, current: Option<EventId>, playheads: seq<real>): (seq<Notice>, Option<EventId>)
    decreases |playheads|
  {
    if |playheads| == 0 then ([], current)
    else
      var t := Step(j, current, playheads[0]);
      var rest := Run(j, t.currentID, playheads[1..]);
      (t.notices + rest.0, rest.1)
  }

  /**
    Over any sequence of checks the notification stream is bracketed: each
    `onStart` is followed by exactly one `onEnd` of the same id before the
    next `onStart`, and the open event at the end is the final current id.
   */
  lemma {:induction false} RunIsBracketed(j: Jiffy, current: Option<EventId>, playheads: seq<real>)
    decreases |playheads|
    ensures Bracketed(current, Run(j, current, playheads).0, Run(j, current, playheads).1)
  {
    if |playheads| > 0 {
      var t := Step(j, current, playheads[0]);
      RunIsBracketed(j, t.currentID, playheads[1..]);
      var rest := Run(j, t.currentID, playheads[1..]);
      BracketedJoin(current, t.notices, t.currentID, rest.0, rest.1);
    }
  }

  /** Cancelling after any run closes every started event: the whole stream is balanced. */
  lemma RunThenCancelIsBalanced(j: Jiffy, current: Option<EventId>, playheads: seq<real>, s: Session)
    requires s.currentID == Run(j, current, playheads).1
    ensures Bracketed(current, Run(j, current, playheads).0 + EventCheckCancel(s).0, None)
  {
    RunIsBracketed(j, current, playheads);
    BracketedJoin(current, Run(j, current, playheads).0, s.currentID, EventCheckCancel(s).0, None);
  }
}

=== FILE: search.dfy ===
/**
  The binary search that the TODO at jiffy.js:139 asks for in place of the
  linear scan of `getTimeID`, and the conditions under which ingestion
  produces a queue it may be used on.
 */
module Search {
  import opened Wrappers
  import opened Tokens
  import opened Lookup
  import opened Builder

  /** In an ordered queue at most one event holds a given time. */
  lemma OrderedHoldsUnique(q: seq<EventToken>, a: nat, b: nat, t: real)
    requires Ordered(q)
    requires a < |q| && b < |q| && q[a].Holds(t) && q[b].Holds(t)
    ensures a == b
  {
  }

  /**
    On an ordered queue `getTimeID` finds every event from its very first
    instant: the start of event k maps to event k's id.
   */
  lemma EventStartIsFound(j: Jiffy, k: nat)
    requires Ordered(j.eventQue)
    requires k < |j.eventQue|
    ensures GetTimeID(j, j.eventQue[k].start) == Some(j.eventQue[k].id)
  {
    var t := j.eventQue[k].start;
    assert j.eventQue[k].Holds(t);
    var i := FirstEventAt(j.eventQue, t, 0).value;
    OrderedHoldsUnique(j.eventQue, i, k, t);
  }

  /**
    `getTimeID` by binary search on event starts: find the last event that
    starts at or before `t` and check that `t` is before its end. On an
    ordered queue it returns exactly what the linear scan returns.
   */
  method BinarySearchTimeID(j: Jiffy, t: real) returns (r: Option<EventId>)
    requires Ordered(j.eventQue)
    ensures r == GetTimeID(j, t)
  {
    var q := j.eventQue;
    var lo, hi := 0, |q|;
    while lo < hi
      invariant 0 <= lo <= hi <= |q|
      invariant forall k :: 0 <= k < lo ==> q[k].start <= t
      invariant forall k :: hi <= k < |q| ==> t < q[k].start
      decreases hi - lo
    {
      var mid := (lo + hi) / 2;
      if q[mid].start <= t {
        lo := mid + 1;
      } else {
        hi := mid;
      }
    }
    if lo > 0 && t < q[lo - 1].end {
      r := Some(q[lo - 1].id);
      assert FirstEventAt(q, t, 0) == Some(lo - 1);
    } else {
      r := None;
      assert forall k :: 0 <= k < |q| ==> !q[k].Holds(t);
    }
  }

  /** Every event of the queue ends by time `limit`. */
  predicate EndsBy(q: seq<EventToken>, limit: real) {
    forall i :: 0 <= i < |q| ==> q[i].end <= limit
  }

  /**
    A `times` list that fits its file: spans are non-empty, in order without
    overlap, start at or after 0 and end by the file's length.
   */
  predicate WellTimed(times: seq<Span>, len: real) {
    && (forall k :: 0 <= k < |times| ==> 0.0 <= times[k].start < times[k].end <= len)
    && (forall a, b :: 0 <= a < b < |times| ==> times[a].end <= times[b].start)
  }

  /**
    Adding a timing object whose times fit its file keeps the queue ordered
    and inside the timeline, so a timeline built from such objects can be
    searched with `BinarySearchTimeID`.
   */
  lemma AddKeepsOrdered(j: Jiffy, o: TimingObj)
    requires Ordered(j.eventQue) && EndsBy(j.eventQue, TotalPlayTime(j))
    requires CheckTimingObj(o) ==> WellTimed(o.times.value, o.lengthSeconds.value)
    ensures Ordered(AddTimingObj(j, o).eventQue)
    ensures EndsBy(AddTimingObj(j, o).eventQue, TotalPlayTime(AddTimingObj(j, o)))
  {
    if CheckTimingObj(o) {
      var r := AddTimingObj(j, o);
      var m := |j.eventQue|;
      var times := o.times.value;
      var offset := TotalPlayTime(j);
      assert forall i :: 0 <= i < m ==> r.eventQue[i] == j.eventQue[i];
      assert forall k :: 0 <= k < |times| ==> r.eventQue[m + k] == Place(times[k], offset, |j.fileList|);
      forall i, k | 0 <= i < k < |r.eventQue|
        ensures r.eventQue[i].end <= r.eventQue[k].start
      {
        if k < m {
        } else if i < m {
          assert r.eventQue[k].start == times[k - m].start + offset;
        } else {
          assert r.eventQue[i].end == times[i - m].end + offset;
          assert r.eventQue[k].start == times[k - m].start + offset;
        }
      }
      forall i | 0 <= i < |r.eventQue|
        ensures r.eventQue[i].start < r.eventQue[i].end
        ensures r.eventQue[i].end <= TotalPlayTime(r)
      {
        if i >= m {
          assert r.eventQue[i] == Place(times[i - m], offset, |j.fileList|);
        }
      }
    }
  }

  /**
    A timeline built from timing objects whose accepted ones all fit their
    files is ordered, so `BinarySearchTimeID` agrees with `getTimeID` on it.
   */
  lemma {:induction false} BuildIsOrdered(objs: seq<TimingObj>)
    requires forall i :: 0 <= i < |objs| && CheckTimingObj(objs[i]) ==>
      WellTimed(objs[i].times.value, objs[i].lengthSeconds.value)
    decreases |objs|
    ensures Ordered(Build(objs).eventQue)
    ensures EndsBy(Build(objs).eventQue, TotalPlayTime(Build(objs)))
  {
    if |objs| > 0 {
      var prev := objs[..|objs| - 1];
      assert forall i :: 0 <= i < |prev| ==> prev[i] == objs[i];
      BuildIsOrdered(prev);
      AddKeepsOrdered(Build(prev), objs[|objs| - 1]);
    }
  }
}

=== FILE: tokens.dfy ===
/**
  The state a Jiffy instance keeps about its timeline (jiffy.js:11-13):
  the file tokens in submission order, the event tokens in absolute time, and
  the index from event id to the event's queue position and owning file.
  Times are exact reals, so offsets and their inverses never round.
 */
module Tokens {
  import opened Wrappers

  type EventId = string
  type Url = string

  /** The one containment rule of the model: the half-open interval [start, end). */
  predicate Within(start: real, end: real, t: real) {
    start <= t < end
  }

  /** One media file placed on the absolute timeline (jiffy.js:12, 62-64). */
  datatype FileToken = FileToken(url: Url, fileref: nat, start: real, len: real, end: real)
  {
    predicate Holds(t: real) {
      Within(start, end, t)
    }
  }

  /** One timed event in absolute time, tagged with its owning file (jiffy.js:11, 69). */
  datatype EventToken = EventToken(id: EventId, start: real, end: real, fileref: nat)
  {
    predicate Holds(t: real) {
      Within(start, end, t)
    }
  }

  /** An `eventRef` entry: where the event sits in `eventQue` and which file owns it (jiffy.js:74). */
  datatype EventRef = EventRef(eventQueRef: nat, fileref: nat)

  /** One property of a timing object's `times`: an event id with file-relative bounds. */
  datatype Span = Span(id: EventId, start: real, end: real)

  /**
    The per-file ingestion shape (jiffy.js:28-36). Every field may be missing,
    as a property of a JavaScript object may be; `times` lists the object's
    properties in their enumeration order.
   */
  datatype TimingObj = TimingObj(url: Option<Url>, lengthSeconds: Option<real>, times: Option<seq<Span>>)

  /** The timeline part of a Jiffy instance. */
  datatype Jiffy = Jiffy(fileList: seq<FileToken>, eventQue: seq<EventToken>, eventRef: map<EventId, EventRef>)

  /** The state of a freshly constructed instance before any timing object is added. */
  const Empty: Jiffy := Jiffy([], [], map[])

  /**
    File tokens are numbered by position, the first starts at 0, each one
    starts where the previous one ends, and `end` is `start + len`.
   */
  predicate Contiguous(files: seq<FileToken>) {
    && (|files| > 0 ==> files[0].start == 0.0)
    && (forall i :: 0 <= i < |files| ==> files[i].fileref == i && files[i].end == files[i].start + files[i].len)
    && (forall i :: 0 < i < |files| ==> files[i].start == files[i - 1].end)
  }

  /**
    Every queued event belongs to a known file and is reachable through
    `eventRef`, and every `eventRef` entry points at a queued event carrying
    that id and owned by the recorded file.
   */
  predicate Indexed(j: Jiffy) {
    && (forall i :: 0 <= i < |j.eventQue| ==>
          j.eventQue[i].fileref < |j.fileList| && j.eventQue[i].id in j.eventRef)
    && (forall id :: id in j.eventRef ==>
          && j.eventRef[id].eventQueRef < |j.eventQue|
          && j.eventQue[j.eventRef[id].eventQueRef].id == id
          && j.eventQue[j.eventRef[id].eventQueRef].fileref == j.eventRef[id].fileref)
  }

  /** The invariant every timeline built by `addTimingObj` keeps. */
  predicate Valid(j: Jiffy) {
    Contiguous(j.fileList) && Indexed(j)
  }

  /** No two queued events share an id, so `eventRef` never had an entry overwritten. */
  predicate IdsUnique(j: Jiffy) {
    forall i, k :: 0 <= i < k < |j.eventQue| ==> j.eventQue[i].id != j.eventQue[k].id
  }

  /**
    The queue is in time order: every event is non-empty and ends no later
    than any later event starts, so no two events overlap or share a start.
   */
  predicate Ordered(q: seq<EventToken>) {
    && (forall i :: 0 <= i < |q| ==> q[i].start < q[i].end)
    && (forall i, k :: 0 <= i < k < |q| ==> q[i].end <= q[k].start)
  }

  /** The sum of the lengths of the given files, added up from the front. */
  function SumLengths(files: seq<FileToken>): real {
    if |files| == 0 then 0.0 else SumLengths(files[..|files| - 1]) + files[|files| - 1].len
  }
}

=== FILE: wrappers.dfy ===
/** Failure-carrying values shared by every module of the model. */
module Wrappers {

  /** A value that may be absent: a missing JavaScript property, a lookup miss. */
  datatype Option<+T> = None | Some(value: T)

  /** The outcome of an operation that can fail with a typed error. */
  datatype Result<+T, +E> = Ok(value: T) | Err(error: E)
}
